=== FILE: README.md ===
# ProtectedInt, modelled in Dafny

`ProtectedInt` is a Java integer container meant to resist memory-editing
"trainer" tools. It never stores its value `v` directly. Each instance
holds two words, `left = v ^ leftSecret` and `right = v ^ rightSecret`,
where the two secrets are process-wide XOR masks drawn once by `setup()`.
`get()` decodes both words. If the two decodings disagree, the instance
treats itself as tampered with and overwrites its words with `(0, 0)`.
All the arithmetic helpers are `set(get() <op> x)`. `compareTo` compares
the decoded value with an `Integer` or with another container.

## How the model is built

- `bitwise.dfy` (`Bitwise`): Java's `^`. It is exclusive-or on infinite
  two's-complement bit strings, defined by recursion on `x / 2` and `x % 2`.
  The file proves that this is bitwise (`XorBitwise`), that it stays within
  the 32-bit range, and its algebra: identity, self-cancellation,
  commutativity, associativity and involution.
- `java_int.dfy` (`JavaInt`): Java `int` as the integers in
  [-2^31, 2^31). `+ - *` keep the low 32 bits (`Wrap`). `/` truncates
  toward zero, and `MIN_VALUE / -1` wraps to `MIN_VALUE`. `%` takes the
  dividend's sign. This follows sections 15.17 and 15.18 of the Java
  Language Specification.
- `protected_int.dfy` (`ProtectedInt`): the secrets, a cell's two words,
  `setup`, `isSetup`, the three constructors, `set` and `get`.
  - The static secrets become an explicit `Secrets` value passed to every
    operation. Before `setup` they are the sentinel `Unset = (-1, -1)`.
  - A cell is an immutable `Cell(left, right)`. Each operation returns the
    value Java returns together with the cell as the call leaves it
    (`Step`). An operation that can throw returns a `Completion`, either
    `Normal` or `Abrupt`, which also carries the cell.
- `arithmetic.dfy` (`Arithmetic`): `increment`, `decrement`, `add`,
  `subtract`, `multiply`, `divide` and `module`. The last one is named
  `Modulo` here, because `module` is a Dafny keyword.
- `comparison.dfy` (`Comparison`): `compareTo(Object)`. The argument is a
  sum type `IntOperand | CellOperand | OtherOperand`. `x.compareTo(x)` is
  modelled separately by `CompareToItself`, because there `get()` runs twice
  on the same cell.
- `scenario.dfy` (`Scenario`): a typical use of the container, stated as a
  lemma.
- `findings.dfy` (`Findings`): two defects, each with an as-written witness
  and a corrected definition (see "## Findings").

The model follows the code. Some of what the code does is at odds with
its own comments or is easy to miss:

- The corruption reset writes the raw words `(0, 0)`. So do the no-arg
  constructor and a failed parse. These words are not the encoding of 0:
  the next `get` returns `leftSecret`, not 0. `(0, 0)` is a fixed point of
  `get` whatever the secrets are (`ZeroWordsReadLeftSecret`).
- `divide(0)` and `module(0)` call `get()` before the division throws. A
  tampered cell is therefore reset even though the call throws
  `ArithmeticException`. A consistent cell is left unchanged
  (`DivideByZeroLeavesWhatGetLeaves`).
- Calling `setup` again does not always invalidate existing cells. A cell
  stays consistent exactly when the new secrets XOR to the same value as
  the old ones (`ResetupKeepsCellIff`).
- `isSetup` tests that both secrets are `>= 0`. It does not compare them
  with the sentinel.
- `MAX_RAND_VAL` is 32769 (2^15 + 1), although its comment says 2^16. Each
  secret is therefore in [0, 32768].

## Model

| member | source | states |
|---|---|---|
| `ProtectedInt.Setup` | src/ProtectedInt/ProtectedInt.java:42-46 | with two draws in [0, 32769), `setup` installs them as the secrets and `isSetup` then holds |
| `ProtectedInt.IsSetup` | src/ProtectedInt/ProtectedInt.java:50-52 | `isSetup` rejects the sentinel (-1, -1) and accepts every pair of secrets `setup` can draw |
| `ProtectedInt.SetupLifecycle` | src/ProtectedInt/ProtectedInt.java:50-52 | `isSetup` is false for the initial sentinel (-1, -1) and true after any `setup` (a corollary of the `IsSetup` and `Setup` contracts) |
| `ProtectedInt.DecodingsAgreeIffConsistent` | src/ProtectedInt/ProtectedInt.java:67-71 | `get`'s mismatch test `leftV != rightV` fails exactly when `left ^ right == leftSecret ^ rightSecret` |
| `ProtectedInt.Set` | src/ProtectedInt/ProtectedInt.java:58-63 | `set(v)` returns `v`; both words decode back to `v`; the cell satisfies the consistency invariant whatever `v` is |
| `ProtectedInt.Get` | src/ProtectedInt/ProtectedInt.java:67-77 | `get` returns the left decoding; a consistent cell is unchanged and its right decoding agrees; an inconsistent cell is reset to the words (0, 0) |
| `ProtectedInt.NewDefault` | src/ProtectedInt/ProtectedInt.java:19-23 | `new ProtectedInt()` does not read the secrets; under any secrets it reads back `leftSecret`, and reading it changes nothing |
| `ProtectedInt.NewWith` | src/ProtectedInt/ProtectedInt.java:26-28 | `new ProtectedInt(v)` is a consistent cell that reads back `v` |
| `ProtectedInt.NewFromText` | src/ProtectedInt/ProtectedInt.java:31-37 | a parsed value is stored and read back; a parse failure leaves the words (0, 0), which read back as `leftSecret` |
| `ProtectedInt.SetGetRoundTrip` | src/ProtectedInt/ProtectedInt.java:58-77 | right after `set(v)`, `get()` returns `v` and changes nothing |
| `ProtectedInt.GetIdempotentWhenConsistent` | src/ProtectedInt/ProtectedInt.java:67-77 | on a consistent cell `get` changes nothing, so two reads agree (a corollary of `Get`'s contract) |
| `ProtectedInt.GetSettles` | src/ProtectedInt/ProtectedInt.java:67-77 | a second `get` never changes the words again; it repeats the value on a consistent cell and returns `leftSecret` after a reset |
| `ProtectedInt.ZeroWordsReadLeftSecret` | src/ProtectedInt/ProtectedInt.java:71-76 | the reset words (0, 0) read as `leftSecret`, are consistent only when the two secrets are equal, and are a fixed point of `get` |
| `ProtectedInt.DefaultReadsLeftSecret` | src/ProtectedInt/ProtectedInt.java:19-23 | `new ProtectedInt()` reads as `leftSecret` and is left unchanged by `get` (`NewDefault`'s contract at one pair of secrets) |
| `ProtectedInt.SetObfuscates` | src/ProtectedInt/ProtectedInt.java:58-63 | the left word equals the value only when `leftSecret` is 0; the two words are equal only when the two secrets are |
| `ProtectedInt.TamperLeftDetected` | src/ProtectedInt/ProtectedInt.java:67-77 | overwriting the left word of a stored value with any other word is detected: that read returns the forged decoding and resets to (0, 0), and the next read of that cell returns `leftSecret` and leaves it at (0, 0) |
| `ProtectedInt.TamperRightDetected` | src/ProtectedInt/ProtectedInt.java:67-77 | overwriting only the right word is detected, and the detecting read still returns the true value |
| `ProtectedInt.SameFlipUndetected` | src/ProtectedInt/ProtectedInt.java:67-77 | flipping the same bits in both words keeps the cell consistent and moves the value by those bits |
| `ProtectedInt.ResetupKeepsCellIff` | src/ProtectedInt/ProtectedInt.java:42-77 | a cell stored under old secrets stays consistent under new ones exactly when both pairs XOR to the same value; otherwise `get` resets it |
| `Arithmetic.Increment` | src/ProtectedInt/ProtectedInt.java:81-83 | stores and returns one more than the value read, wrapping `MAX_VALUE` to `MIN_VALUE`; the cell then reads back the returned value |
| `Arithmetic.Decrement` | src/ProtectedInt/ProtectedInt.java:87-89 | stores and returns one less than the value read, wrapping `MIN_VALUE` to `MAX_VALUE` |
| `Arithmetic.Add` | src/ProtectedInt/ProtectedInt.java:94-96 | stores and returns the value with the same low 32 bits as the exact sum, which is the exact sum when it fits |
| `Arithmetic.Subtract` | src/ProtectedInt/ProtectedInt.java:101-103 | the same for the difference |
| `Arithmetic.Multiply` | src/ProtectedInt/ProtectedInt.java:108-110 | the same for the product |
| `Arithmetic.Divide` | src/ProtectedInt/ProtectedInt.java:115-117 | throws `ArithmeticException` exactly for divisor 0, leaving the cell as `get` left it; otherwise stores and returns Java's truncating quotient |
| `Arithmetic.Modulo` | src/ProtectedInt/ProtectedInt.java:123-125 | throws `ArithmeticException` exactly for divisor 0, leaving the cell as `get` left it; otherwise stores and returns Java's `%` of the value read, which is smaller in magnitude than the divisor and has the sign of the value read |
| `Arithmetic.StepsAreAdds` | src/ProtectedInt/ProtectedInt.java:81-96 | `increment()` is `add(1)` and `decrement()` is `add(-1)` |
| `Arithmetic.SubtractIsAddNegated` | src/ProtectedInt/ProtectedInt.java:94-103 | `subtract(x)` is `add(-x)` in Java arithmetic |
| `Arithmetic.AddThenSubtractRestores` | src/ProtectedInt/ProtectedInt.java:94-103 | `add(x)` then `subtract(x)` leaves the encoding of the value first read, overflow included |
| `Arithmetic.IncrementThenDecrementRestores` | src/ProtectedInt/ProtectedInt.java:81-89 | `increment()` then `decrement()` leaves the encoding of the value first read |
| `Arithmetic.DivideModuloRecompose` | src/ProtectedInt/ProtectedInt.java:115-125 | from the same cell, `divide(x) * x + module(x)` equals the value read, in wrapping arithmetic |
| `Arithmetic.DivideByZeroLeavesWhatGetLeaves` | src/ProtectedInt/ProtectedInt.java:115-117 | dividing by 0 leaves a consistent cell unchanged and resets a tampered one to (0, 0) |
| `Arithmetic.HelpersStoreFromLeftDecoding` | src/ProtectedInt/ProtectedInt.java:81-125 | on any cell, tampered or not, every helper computes from the left decoding and stores the result properly encoded, so a tampered cell ends up consistent and holding the result computed from the forged value |
| `Comparison.CompareTo` | src/ProtectedInt/ProtectedInt.java:128-134 | against an `Integer` or a container, the result is the wrapped difference of the values read; it is 0 exactly when the values are equal, and its sign follows their order when the difference fits; both `get`s happen, the receiver's first; any other argument throws `ClassCastException` and changes nothing |
| `Comparison.CompareToItself` | src/ProtectedInt/ProtectedInt.java:131-132 | `x.compareTo(x)` returns the left decoding minus what the second `get` reads: the same value on a consistent cell, `leftSecret` after the first `get` reset it; so it is 0 exactly when the cell is consistent or its left word is 0 |
| `Comparison.CompareConsistentCells` | src/ProtectedInt/ProtectedInt.java:131-132 | two consistent containers compare as 0 exactly when their words are equal, and neither is changed |
| `Comparison.IntegerAndCellOperandsAgree` | src/ProtectedInt/ProtectedInt.java:129-132 | comparing with `Integer x` gives the same outcome as comparing with a container that stores `x` |
| `JavaInt.Wrap` | src/ProtectedInt/ProtectedInt.java:82-109 | narrowing an exact result to `int` gives the one value in [-2^31, 2^31) with the same low 32 bits, and leaves a result that fits unchanged |
| `JavaInt.Add` | src/ProtectedInt/ProtectedInt.java:82-95 | Java's `+` (in `get()+1` and `get()+v`) keeps the low 32 bits of the exact sum and is exact when the sum fits |
| `JavaInt.Sub` | src/ProtectedInt/ProtectedInt.java:88-130 | Java's `-` (in `get()-1`, `get()-v` and both differences of `compareTo`) keeps the low 32 bits of the exact difference and is exact when the difference fits |
| `JavaInt.Mul` | src/ProtectedInt/ProtectedInt.java:109 | Java's `*` keeps the low 32 bits of the exact product and is exact when the product fits |
| `JavaInt.Xor` | src/ProtectedInt/ProtectedInt.java:60-69 | Java's `^` on `int`: the result is an `int`, and each of its bits is the exclusive-or of the operands' bits at that position |
| `JavaInt.Div` | src/ProtectedInt/ProtectedInt.java:116 | Java's `/` is truncating division, exact except that `MIN_VALUE / -1` is `MIN_VALUE` |
| `JavaInt.Rem` | src/ProtectedInt/ProtectedInt.java:124 | Java's `%` is the remainder that completes truncating division (`a == (a / b) * b + a % b` over unbounded integers); it is smaller in magnitude than the divisor and has the dividend's sign |
| `JavaInt.DivRemIdentity` | src/ProtectedInt/ProtectedInt.java:115-125 | `(a / b) * b + a % b == a` in Java arithmetic, overflow included |
| `JavaInt.SubZeroIffEqual` | src/ProtectedInt/ProtectedInt.java:130 | the wrapped difference is 0 exactly when the operands are equal |
| `Bitwise.XorBitwise` | src/ProtectedInt/ProtectedInt.java:60-61 | every bit of `a ^ b` is the exclusive-or of the two input bits |
| `Bitwise.XorInvolution` | src/ProtectedInt/ProtectedInt.java:60-68 | masking twice with the same secret gives the value back, which is what decoding relies on |
| `Scenario.UsageScenario` | src/ProtectedInt/ProtectedInt.java:26-134 | under any secrets: store 42, increment to 43, multiply to 86; compare with 86 gives 0 and with 10 gives 76; another type throws; an unparsable text reads `leftSecret` |
| `Findings.DefaultReadsSecretNotZero` | src/ProtectedInt/ProtectedInt.java:18-23 | with secrets (5, 7), `new ProtectedInt().get()` returns 5 |
| `Findings.ResetReadsSecretNotZero` | src/ProtectedInt/ProtectedInt.java:71-76 | with secrets (5, 7), the read after a detected tamper returns 5 |
| `Findings.CorrectedGet` | src/ProtectedInt/ProtectedInt.java:67-77 | corrected `get`: like `get`, but an inconsistent cell is reset to the encoding of 0 |
| `Findings.CorrectedNewDefault` | src/ProtectedInt/ProtectedInt.java:18-23 | corrected no-arg constructor: reads back 0 |
| `Findings.CorrectedNewFromText` | src/ProtectedInt/ProtectedInt.java:31-37 | corrected text constructor: a parse failure stores 0 |
| `Findings.CorrectedGetCollapsesToZero` | src/ProtectedInt/ProtectedInt.java:71-76 | with the correction, every read after a detected mismatch returns 0; consistent cells behave exactly as before |
| `Findings.CompareToSignInverted` | src/ProtectedInt/ProtectedInt.java:128-130 | a container holding `MIN_VALUE` compared with `Integer` 1 returns `MAX_VALUE` (positive) |
| `Findings.CorrectedCompareTo` | src/ProtectedInt/ProtectedInt.java:127-134 | corrected `compareTo`: the same reads and exception, with a result whose sign always follows the order |
| `Findings.CorrectedCompareToAntisymmetric` | src/ProtectedInt/ProtectedInt.java:131-132 | the corrected comparison of any two containers, tampered with or not, is antisymmetric: swapping them flips the sign and keeps 0 |
| `Findings.CompareToAgreesWithoutOverflow` | src/ProtectedInt/ProtectedInt.java:129-130 | the original and corrected comparisons agree in sign whenever the difference fits |

## Findings

| source | as written | input that shows it | evidently intended | confidence | as-written member | corrected member |
|---|---|---|---|---|---|---|
| src/ProtectedInt/ProtectedInt.java:71-76 | after a mismatch `get` writes the raw words `left = 0, right = 0` ("reset to 0") | secrets (5, 7); store any value; overwrite the left word; read twice: the second read returns 5 | reset to the encoding of 0, so that later reads return 0 | high (the comment says "reset to 0"); not executed | `Findings.ResetReadsSecretNotZero` | `Findings.CorrectedGet` |
| src/ProtectedInt/ProtectedInt.java:18-23 | the no-arg constructor, documented as "0 value", writes the raw words (0, 0) | secrets (5, 7): `new ProtectedInt().get()` returns 5 | the encoding of 0 | high (the doc comment says "0 value"); not executed | `Findings.DefaultReadsSecretNotZero` | `Findings.CorrectedNewDefault` |
| src/ProtectedInt/ProtectedInt.java:34-36 | a failed parse writes the raw words (0, 0) | secrets (5, 7): a container built from text that does not parse reads 5 | the encoding of 0 | medium (same pattern as the constructor); not executed | `ProtectedInt.NewFromText` | `Findings.CorrectedNewFromText` |
| src/ProtectedInt/ProtectedInt.java:128-130 | `compareTo` returns the wrapped difference `get() - x` | a container holding `MIN_VALUE` against `Integer` 1 returns `MAX_VALUE`, so it claims `MIN_VALUE > 1` | a result whose sign follows the order, as `Comparable` requires | high; not executed | `Findings.CompareToSignInverted` | `Findings.CorrectedCompareTo` |

The model of the program itself (`ProtectedInt`, `Arithmetic`,
`Comparison`) keeps the code's behaviour, because that is what the program
does. The corrected definitions stand beside it in `Findings`, and each
intended property is proved about the corrected definition.

## Left out

- `setup`'s `Math.random()`: the two draws `(int)(Math.random() * MAX_RAND_VAL)`
  are parameters. The requirement that they lie in [0, 32769) is the range
  that `Math.random` guarantees, not a demand on callers. Floating-point
  rounding of the product is not modelled.
- `Integer.parseInt` in the text constructor: its outcome is an
  `Option<Int32>` input. Which strings parse to which values is not
  modelled.
- Process-global mutable statics and concurrent use: the secrets are an
  explicit value, and there is no synchronization in the code to model.
  Races between two threads are out of scope.
- The commented-out `System.out.println` lines (22, 45) do nothing.
- Runtime type dispatch on `Object`: replaced by the `Operand` sum type.
  `null` and every other class fall into `OtherOperand`.
- Object identity: cells are values. The only aliasing case in the class is
  a container compared with itself, which `Comparison.CompareToItself`
  covers.

=== FILE: arithmetic.dfy ===
/**
  The arithmetic helpers of `ProtectedInt`. Each one is
  `set(get() <op> operand)`: it reads the cell (which may reset a tampered
  cell), applies Java's `int` operator and stores the result.
 */
module Arithmetic {
  import opened JavaInt
  import opened ProtectedInt
  import Bitwise

  /** The returned value is what the cell now holds: the cell is consistent
      and reading it gives back that value without changing it. */
  predicate Stored(s: Secrets, r: Step) {
    Consistent(s, r.cell) && Get(s, r.cell) == r
  }

  /** What `set` stores is read back unchanged. */
  lemma SetStores(s: Secrets, v: Int32)
    ensures Stored(s, Set(s, v))
  {
    SetGetRoundTrip(s, v);
  }

  /** `increment()`: one more than the value read, wrapping from
      `MAX_VALUE` to `MIN_VALUE`. */
  function Increment(s: Secrets, c: Cell): (r: Step)
    ensures Stored(s, r)
    ensures Get(s, c).value < MaxValue ==> r.value == Get(s, c).value + 1
    ensures Get(s, c).value == MaxValue ==> r.value == MinValue
  {
    var g := Get(s, c);
    var v := JavaInt.Add(g.value, 1);
    JavaInt.WrapAtEnds();
    SetStores(s, v);
    Set(s, v)
  }

  /** `decrement()`: one less than the value read, wrapping from
      `MIN_VALUE` to `MAX_VALUE`. */
  function Decrement(s: Secrets, c: Cell): (r: Step)
    ensures Stored(s, r)
    ensures Get(s, c).value > MinValue ==> r.value == Get(s, c).value - 1
    ensures Get(s, c).value == MinValue ==> r.value == MaxValue
  {
    var g := Get(s, c);
    var v := JavaInt.Sub(g.value, 1);
    JavaInt.WrapAtEnds();
    SetStores(s, v);
    Set(s, v)
  }

  /** `add(x)`: the low 32 bits of the exact sum of the value read and `x`. */
  function Add(s: Secrets, c: Cell, x: Int32): (r: Step)
    ensures Stored(s, r)
    ensures Congruent(r.value, Get(s, c).value + x)
    ensures InRange(Get(s, c).value + x) ==> r.value == Get(s, c).value + x
  {
    var g := Get(s, c);
    var v := JavaInt.Add(g.value, x);
    SetStores(s, v);
    Set(s, v)
  }

  /** `subtract(x)`: the low 32 bits of the exact difference. */
  function Subtract(s: Secrets, c: Cell, x: Int32): (r: Step)
    ensures Stored(s, r)
    ensures Congruent(r.value, Get(s, c).value - x)
    ensures InRange(Get(s, c).value - x) ==> r.value == Get(s, c).value - x
  {
    var g := Get(s, c);
    var v := JavaInt.Sub(g.value, x);
    SetStores(s, v);
    Set(s, v)
  }

  /** `multiply(x)`: the low 32 bits of the exact product. */
  function Multiply(s: Secrets, c: Cell, x: Int32): (r: Step)
    ensures Stored(s, r)
    ensures Congruent(r.value, Get(s, c).value * x)
    ensures InRange(Get(s, c).value * x) ==> r.value == Get(s, c).value * x
  {
    var g := Get(s, c);
    var v := JavaInt.Mul(g.value, x);
    SetStores(s, v);
    Set(s, v)
  }

  /** `divide(x)`: truncating division of the value read by `x`. A zero
      divisor throws `ArithmeticException`; since `get()` has already run,
      the cell is left as `get` left it (reset if it was tampered with). */
  function Divide(s: Secrets, c: Cell, x: Int32): (r: Completion)
    ensures r.Abrupt? <==> x == 0
    ensures r.Abrupt? ==> r.error == ArithmeticException && r.cell == Get(s, c).cell
    ensures r.Normal? ==> Stored(s, Step(r.value, r.cell))
    ensures r.Normal? ==> r.value == Div(Get(s, c).value, x)
  {
    var g := Get(s, c);
    if x == 0 then
      Abrupt(ArithmeticException, g.cell)
    else
      SetStores(s, Div(g.value, x));
      var w := Set(s, Div(g.value, x));
      Normal(w.value, w.cell)
  }

  /** `module(x)`: the remainder of truncating division of the value read by
      `x`, with the sign of the value read. A zero divisor throws as in
      `Divide`. */
  function Modulo(s: Secrets, c: Cell, x: Int32): (r: Completion)
    ensures r.Abrupt? <==> x == 0
    ensures r.Abrupt? ==> r.error == ArithmeticException && r.cell == Get(s, c).cell
    ensures r.Normal? ==> Stored(s, Step(r.value, r.cell))
    ensures r.Normal? ==> r.value == Rem(Get(s, c).value, x)
    ensures r.Normal? ==> Bitwise.Abs(r.value) < Bitwise.Abs(x)
    ensures r.Normal? ==> r.value == 0 || ((r.value < 0) <==> (Get(s, c).value < 0))
  {
    var g := Get(s, c);
    if x == 0 then
      Abrupt(ArithmeticException, g.cell)
    else
      SetStores(s, Rem(g.value, x));
      var w := Set(s, Rem(g.value, x));
      Normal(w.value, w.cell)
  }

  /** `increment()` is `add(1)` and `decrement()` is `add(-1)`. */
  lemma StepsAreAdds(s: Secrets, c: Cell)
    ensures Increment(s, c) == Add(s, c, 1)
    ensures Decrement(s, c) == Add(s, c, -1)
  {
  }

  /** `subtract(x)` is `add` of Java's `-x` (so `subtract(MIN_VALUE)` is
      `add(MIN_VALUE)`). */
  lemma SubtractIsAddNegated(s: Secrets, c: Cell, x: Int32)
    ensures Subtract(s, c, x) == Add(s, c, JavaInt.Sub(0, x))
  {
    JavaInt.SubIsAddNegated(Get(s, c).value, x);
  }

  /** `add(x)` followed by `subtract(x)` restores the value read and its
      encoding, overflow included. */
  lemma AddThenSubtractRestores(s: Secrets, c: Cell, x: Int32)
    ensures Subtract(s, Add(s, c, x).cell, x) == Set(s, Get(s, c).value)
  {
    var g := Get(s, c).value;
    var a := Add(s, c, x);
    assert Get(s, a.cell).value == JavaInt.Add(g, x);
    JavaInt.AddSubCancel(g, x);
  }

  /** `increment()` followed by `decrement()` restores the value read. */
  lemma IncrementThenDecrementRestores(s: Secrets, c: Cell)
    ensures Decrement(s, Increment(s, c).cell) == Set(s, Get(s, c).value)
  {
    var g := Get(s, c).value;
    var a := Increment(s, c);
    assert Get(s, a.cell).value == JavaInt.Add(g, 1);
    JavaInt.AddSubCancel(g, 1);
  }

  /** Starting from the same cell, the quotient from `divide(x)` times `x`
      plus the remainder from `module(x)` is the value read, in Java's
      wrapping arithmetic. */
  lemma DivideModuloRecompose(s: Secrets, c: Cell, x: Int32)
    requires x != 0
    ensures Divide(s, c, x).Normal? && Modulo(s, c, x).Normal?
    ensures JavaInt.Add(Mul(Divide(s, c, x).value, x), Modulo(s, c, x).value) == Get(s, c).value
  {
    JavaInt.DivRemIdentity(Get(s, c).value, x);
  }

  /** Dividing by zero leaves a consistent cell untouched and resets a
      tampered one, because `get()` runs before the division throws. */
  lemma DivideByZeroLeavesWhatGetLeaves(s: Secrets, c: Cell)
    ensures Consistent(s, c) ==> Divide(s, c, 0) == Abrupt(ArithmeticException, c)
    ensures !Consistent(s, c) ==> Divide(s, c, 0) == Abrupt(ArithmeticException, ZeroWords)
  {
  }

  /** Every helper computes from the left decoding and stores its result
      properly encoded, whatever the cell held: a tampered cell is not left
      reset to `(0, 0)` but overwritten with the result computed from the
      forged value. */
  lemma HelpersStoreFromLeftDecoding(s: Secrets, c: Cell, x: Int32)
    ensures Increment(s, c) == Set(s, JavaInt.Add(LeftValue(s, c), 1))
    ensures Decrement(s, c) == Set(s, JavaInt.Sub(LeftValue(s, c), 1))
    ensures Add(s, c, x) == Set(s, JavaInt.Add(LeftValue(s, c), x))
    ensures Subtract(s, c, x) == Set(s, JavaInt.Sub(LeftValue(s, c), x))
    ensures Multiply(s, c, x) == Set(s, Mul(LeftValue(s, c), x))
    ensures x != 0 ==> Divide(s, c, x) == Normal(Div(LeftValue(s, c), x), Set(s, Div(LeftValue(s, c), x)).cell)
    ensures x != 0 ==> Modulo(s, c, x) == Normal(Rem(LeftValue(s, c), x), Set(s, Rem(LeftValue(s, c), x)).cell)
  {
  }
}

=== FILE: bitwise.dfy ===
/**
  Bitwise exclusive-or on two's-complement integers.

  Java's `^` on `int` works on 32-bit two's-complement patterns. Here an
  integer is read as an infinite two's-complement bit string (its lowest bit
  is `x % 2`, the rest is `x / 2`, both Euclidean, so `-1` is all ones), and
  `Xor` combines two such strings bit by bit (`XorBitwise`), and two values
  in the 32-bit range give a value in that range (`XorBounded`); together
  these make it Java's `^` on `int`.
 */
module Bitwise {

  /** 2^n */
  function Pow2(n: nat): (p: int)
    ensures p >= 1
  {
    if n == 0 then 1 else 2 * Pow2(n - 1)
  }

  lemma {:induction false} Pow2Add(m: nat, n: nat)
    ensures Pow2(m + n) == Pow2(m) * Pow2(n)
    decreases m
  {
    if m > 0 {
      Pow2Add(m - 1, n);
    }
  }

  /** The magnitude of Java's `Integer.MIN_VALUE`. */
  lemma Pow2Of31()
    ensures Pow2(31) == 0x8000_0000
  {
    assert Pow2(8) == 256;
    Pow2Add(8, 8);
    Pow2Add(16, 8);
    Pow2Add(24, 4);
    Pow2Add(28, 2);
    Pow2Add(30, 1);
  }

  /** True for the two integers whose bit strings are constant: 0 and -1. */
  predicate IsSignFill(x: int) {
    x == 0 || x == -1
  }

  /** The lowest bit of `x` (0 or 1). */
  function LowBit(x: int): (b: int)
    ensures b == 0 || b == 1
  {
    x % 2
  }

  /** Bitwise exclusive-or of two infinite two's-complement bit strings. */
  function Xor(a: int, b: int): (r: int)
    decreases Abs(a) + Abs(b)
  {
    if IsSignFill(a) && IsSignFill(b) then
      (if a == b then 0 else -1)
    else
      HalfShrinks(a);
      HalfShrinks(b);
      2 * Xor(a / 2, b / 2) + (if LowBit(a) == LowBit(b) then 0 else 1)
  }

  function Abs(x: int): (r: nat) {
    if x < 0 then -x else x
  }

  /** Halving moves every integer other than 0 and -1 strictly toward 0,
      and fixes 0 and -1. */
  lemma HalfShrinks(x: int)
    ensures IsSignFill(x) ==> x / 2 == x
    ensures !IsSignFill(x) ==> Abs(x / 2) < Abs(x)
  {
  }

  /** An integer is determined by its upper bits and its lowest bit. */
  lemma Recompose(x: int)
    ensures x == 2 * (x / 2) + LowBit(x)
  {
  }

  /** One step of `Xor`, valid for every argument (the sign-fill case
      included): its upper bits are the `Xor` of the upper bits, its lowest
      bit is the `Xor` of the lowest bits. */
  lemma XorUnfold(a: int, b: int)
    ensures Xor(a, b) / 2 == Xor(a / 2, b / 2)
    ensures LowBit(Xor(a, b)) == (if LowBit(a) == LowBit(b) then 0 else 1)
  {
    HalfShrinks(a);
    HalfShrinks(b);
    if IsSignFill(a) && IsSignFill(b) {
      assert a / 2 == a && b / 2 == b;
    }
  }

  /** Two integers with the same upper bits and the same lowest bit are equal. */
  lemma SameBitsSame(x: int, y: int)
    requires x / 2 == y / 2
    requires LowBit(x) == LowBit(y)
    ensures x == y
  {
    Recompose(x);
    Recompose(y);
  }

  /** 0 is the identity of `Xor`. */
  lemma {:induction false} XorZero(a: int)
    ensures Xor(a, 0) == a
    decreases Abs(a)
  {
    if !IsSignFill(a) {
      HalfShrinks(a);
      XorUnfold(a, 0);
      XorZero(a / 2);
      SameBitsSame(Xor(a, 0), a);
    }
  }

  /** Every bit string cancels itself. */
  lemma {:induction false} XorSelf(a: int)
    ensures Xor(a, a) == 0
    decreases Abs(a)
  {
    if !IsSignFill(a) {
      HalfShrinks(a);
      XorUnfold(a, a);
      XorSelf(a / 2);
      SameBitsSame(Xor(a, a), 0);
    }
  }

  /** `Xor` is commutative. */
  lemma {:induction false} XorComm(a: int, b: int)
    ensures Xor(a, b) == Xor(b, a)
    decreases Abs(a) + Abs(b)
  {
    if !(IsSignFill(a) && IsSignFill(b)) {
      HalfShrinks(a);
      HalfShrinks(b);
      XorUnfold(a, b);
      XorUnfold(b, a);
      XorComm(a / 2, b / 2);
      SameBitsSame(Xor(a, b), Xor(b, a));
    }
  }

  /** `Xor` is associative. */
  lemma {:induction false} XorAssoc(a: int, b: int, c: int)
    ensures Xor(Xor(a, b), c) == Xor(a, Xor(b, c))
    decreases Abs(a) + Abs(b) + Abs(c)
  {
    HalfShrinks(a);
    HalfShrinks(b);
    HalfShrinks(c);
    XorUnfold(Xor(a, b), c);
    XorUnfold(a, b);
    XorUnfold(a, Xor(b, c));
    XorUnfold(b, c);
    if IsSignFill(a) && IsSignFill(b) && IsSignFill(c) {
      // the upper bits are the arguments themselves; only the low bit matters
      assert Xor(a, b) / 2 == Xor(a, b) && Xor(b, c) / 2 == Xor(b, c);
    } else {
      XorAssoc(a / 2, b / 2, c / 2);
    }
    SameBitsSame(Xor(Xor(a, b), c), Xor(a, Xor(b, c)));
  }

  /** Applying the same mask twice gives the original back. */
  lemma XorInvolution(a: int, k: int)
    ensures Xor(Xor(a, k), k) == a
  {
    XorAssoc(a, k, k);
    XorSelf(k);
    XorZero(a);
  }

  /** Masking with a fixed value is injective. */
  lemma XorCancel(x: int, y: int, k: int)
    ensures Xor(x, k) == Xor(y, k) <==> x == y
  {
    if Xor(x, k) == Xor(y, k) {
      XorInvolution(x, k);
      XorInvolution(y, k);
    }
  }

  /** Two bit strings are equal exactly when their `Xor` is 0. */
  lemma XorZeroIffEqual(x: int, y: int)
    ensures Xor(x, y) == 0 <==> x == y
  {
    XorSelf(y);
    XorCancel(x, y, y);
  }

  /** The four operands of two nested `Xor`s may be regrouped crosswise. */
  lemma XorRegroup(a: int, b: int, c: int, d: int)
    ensures Xor(Xor(a, b), Xor(c, d)) == Xor(Xor(a, c), Xor(b, d))
  {
    calc {
      Xor(Xor(a, b), Xor(c, d));
      { XorAssoc(a, b, Xor(c, d)); }
      Xor(a, Xor(b, Xor(c, d)));
      { XorAssoc(b, c, d); XorComm(b, c); XorAssoc(c, b, d); }
      Xor(a, Xor(c, Xor(b, d)));
      { XorAssoc(a, c, Xor(b, d)); }
      Xor(Xor(a, c), Xor(b, d));
    }
  }

  /** `Xor(x, k) == x` exactly when the mask `k` is 0. */
  lemma XorFixesOnlyWithZero(x: int, k: int)
    ensures Xor(x, k) == x <==> k == 0
  {
    XorZero(x);
    XorComm(x, k);
    XorComm(x, 0);
    XorCancel(k, 0, x);
  }

  /** `x` shifted right arithmetically by `i` places (Java's `x >> i`). */
  function ShiftRight(x: int, i: nat): (r: int)
    decreases i
  {
    if i == 0 then x else ShiftRight(x / 2, i - 1)
  }

  /** Bit `i` of `x`, counting from the least significant bit. */
  function Bit(x: int, i: nat): (r: int) {
    LowBit(ShiftRight(x, i))
  }

  /** `XorBitwise` at every bit position at once. */
  lemma XorBitwiseAll(a: int, b: int)
    ensures forall i: nat :: Bit(Xor(a, b), i) == (if Bit(a, i) == Bit(b, i) then 0 else 1)
  {
    forall i: nat
      ensures Bit(Xor(a, b), i) == (if Bit(a, i) == Bit(b, i) then 0 else 1)
    {
      XorBitwise(a, b, i);
    }
  }

  /** `Xor` is bitwise: every bit of the result is the exclusive-or of the
      corresponding bits of the arguments. */
  lemma {:induction false} XorBitwise(a: int, b: int, i: nat)
    ensures Bit(Xor(a, b), i) == (if Bit(a, i) == Bit(b, i) then 0 else 1)
    decreases i
  {
    XorUnfold(a, b);
    if i > 0 {
      XorBitwise(a / 2, b / 2, i - 1);
    }
  }

  /** The bit strings that fit in `n + 1` two's-complement bits are closed
      under `Xor`. */
  lemma {:induction false} XorBounded(a: int, b: int, n: nat)
    requires -Pow2(n) <= a < Pow2(n)
    requires -Pow2(n) <= b < Pow2(n)
    ensures -Pow2(n) <= Xor(a, b) < Pow2(n)
    decreases n
  {
    if !(IsSignFill(a) && IsSignFill(b)) {
      assert n > 0;
      HalfShrinks(a);
      HalfShrinks(b);
      XorBounded(a / 2, b / 2, n - 1);
    }
  }
}

=== FILE: comparison.dfy ===
/**
  `compareTo(Object)` of `ProtectedInt`. Java dispatches on the runtime type
  of the argument; here the argument is a sum type with one case per branch
  of that dispatch.
 */
module Comparison {
  import opened JavaInt
  import opened ProtectedInt
  import Bitwise

  /** The argument of `compareTo`: a boxed `Integer`, another container
      (given by its cell), or any other object (`null` included). */
  datatype Operand =
    | IntOperand(x: Int32)
    | CellOperand(other: Cell)
    | OtherOperand

  /** How `compareTo` completes for the receiver, and the argument as the
      call leaves it (another container's cell may have been reset). */
  datatype Comparison = Comparison(outcome: Completion, operand: Operand)

  /** `compareTo(arg)`: the wrapped difference `get() - x` against an
      `Integer`, the wrapped difference of both `get()`s against another
      container (the receiver is read first), and `ClassCastException`
      for anything else, without reading the receiver. */
  function CompareTo(s: Secrets, c: Cell, arg: Operand): (r: Comparison)
    ensures arg.IntOperand? ==>
      && r.outcome.Normal?
      && r.outcome.value == Sub(Get(s, c).value, arg.x)
      && (r.outcome.value == 0 <==> Get(s, c).value == arg.x)
      && (InRange(Get(s, c).value - arg.x) ==> (r.outcome.value < 0 <==> Get(s, c).value < arg.x))
      && r.outcome.cell == Get(s, c).cell
      && r.operand == arg
    ensures arg.CellOperand? ==>
      && r.outcome.Normal?
      && r.outcome.value == Sub(Get(s, c).value, Get(s, arg.other).value)
      && (r.outcome.value == 0 <==> Get(s, c).value == Get(s, arg.other).value)
      && (InRange(Get(s, c).value - Get(s, arg.other).value) ==>
            (r.outcome.value < 0 <==> Get(s, c).value < Get(s, arg.other).value))
      && r.outcome.cell == Get(s, c).cell
      && r.operand == CellOperand(Get(s, arg.other).cell)
    ensures arg.OtherOperand? ==> r == Comparison(Abrupt(ClassCastException, c), arg)
  {
    match arg
    case IntOperand(x) =>
      var g := Get(s, c);
      SubZeroIffEqual(g.value, x);
      Comparison(Normal(Sub(g.value, x), g.cell), arg)
    case CellOperand(d) =>
      var g := Get(s, c);
      var h := Get(s, d);
      SubZeroIffEqual(g.value, h.value);
      Comparison(Normal(Sub(g.value, h.value), g.cell), CellOperand(h.cell))
    case OtherOperand =>
      Comparison(Abrupt(ClassCastException, c), arg)
  }

  /** `x.compareTo(x)`: the receiver is its own argument, so `get()` runs
      twice on the same cell and the second read sees what the first one
      left. */
  function CompareToItself(s: Secrets, c: Cell): (r: Completion)
    ensures r.Normal?
    ensures r.cell == Get(s, c).cell
    ensures r.value == Sub(LeftValue(s, c), if Consistent(s, c) then LeftValue(s, c) else s.left)
    ensures r.value == 0 <==> Consistent(s, c) || c.left == 0
  {
    var g := Get(s, c);
    var h := Get(s, g.cell);
    GetSettles(s, c);
    SubZeroIffEqual(g.value, h.value);
    Bitwise.XorComm(c.left, s.left);
    Bitwise.XorFixesOnlyWithZero(s.left, c.left);
    Normal(Sub(g.value, h.value), h.cell)
  }

  /** Two consistent containers compare as 0 exactly when they hold the same
      value, whatever words store it, and comparing reads neither of them
      destructively. */
  lemma CompareConsistentCells(s: Secrets, c: Cell, d: Cell)
    requires Consistent(s, c) && Consistent(s, d)
    ensures CompareTo(s, c, CellOperand(d)).outcome.cell == c
    ensures CompareTo(s, c, CellOperand(d)).operand == CellOperand(d)
    ensures CompareTo(s, c, CellOperand(d)).outcome.value == 0 <==> c == d
  {
    DecodingsAgreeIffConsistent(s, c);
    DecodingsAgreeIffConsistent(s, d);
    if LeftValue(s, c) == LeftValue(s, d) {
      Bitwise.XorCancel(c.left, d.left, s.left);
      Bitwise.XorCancel(c.right, d.right, s.right);
    }
  }

  /** Comparing with a boxed `Integer` agrees with comparing with a container
      that stores the same value. */
  lemma IntegerAndCellOperandsAgree(s: Secrets, c: Cell, x: Int32)
    ensures CompareTo(s, c, IntOperand(x)).outcome == CompareTo(s, c, CellOperand(Set(s, x).cell)).outcome
  {
    SetGetRoundTrip(s, x);
  }
}

=== FILE: findings.dfy ===
/**
  Two places where `ProtectedInt` does not do what its own comments, or the
  `Comparable` contract it implements, promise. For each, a lemma exhibits the
  behaviour as written on a concrete input, and a corrected definition
  carries the intended property as a proof.

  1. "Reset to 0" writes the raw words `(0, 0)`, which read back as the left
     secret, not as 0 (the no-arg constructor, which is documented as
     creating "0 value", and a failed parse do the same).
  2. `compareTo` returns the wrapped difference `get() - x`, whose sign is
     wrong when the difference overflows.
 */
module Findings {
  import opened Wrappers
  import opened JavaInt
  import opened ProtectedInt
  import Comparison

  // ---- 1. the zero words are not the encoding of 0 -------------------------

  /** As written: with secrets (5, 7), `new ProtectedInt()` reads 5. */
  lemma DefaultReadsSecretNotZero()
    ensures Get(Setup(5, 7), NewDefault()).value == 5
  {
    DefaultReadsLeftSecret(Setup(5, 7));
  }

  /** As written: with secrets (5, 7), once a tampered left word has been
      detected, the following `get` reads 5, not 0. */
  lemma ResetReadsSecretNotZero(v: Int32, w: Int32)
    requires w != Set(Setup(5, 7), v).cell.left
    ensures
      var s := Setup(5, 7);
      var first := Get(s, Cell(w, Set(s, v).cell.right));
      Get(s, first.cell).value == 5
  {
    TamperLeftDetected(Setup(5, 7), v, w);
  }

  /** The cell that `get`'s comment "values corrupted, reset to 0" and the
      constructor's "0 value" call 0: the encoding of 0. */
  function ZeroValue(s: Secrets): (c: Cell)
    ensures Consistent(s, c) && LeftValue(s, c) == 0
  {
    Set(s, 0).cell
  }

  /** Corrected `get`: a mismatch resets the cell to the encoding of 0. */
  function CorrectedGet(s: Secrets, c: Cell): (r: Step)
    ensures r.value == LeftValue(s, c)
    ensures Consistent(s, c) ==> r.cell == c
    ensures !Consistent(s, c) ==> r.cell == ZeroValue(s)
  {
    var leftV := Xor(c.left, s.left);
    var rightV := Xor(c.right, s.right);
    DecodingsAgreeIffConsistent(s, c);
    if leftV != rightV then Step(leftV, ZeroValue(s)) else Step(leftV, c)
  }

  /** Corrected no-arg constructor: a container holding 0. */
  function CorrectedNewDefault(s: Secrets): (c: Cell)
    ensures CorrectedGet(s, c) == Step(0, c)
  {
    ZeroValue(s)
  }

  /** Corrected text constructor: a parse failure stores 0. */
  function CorrectedNewFromText(s: Secrets, parsed: Option<Int32>): (c: Cell)
    ensures Consistent(s, c)
    ensures CorrectedGet(s, c).value == (if parsed.Some? then parsed.value else 0)
  {
    SetGetRoundTrip(s, if parsed.Some? then parsed.value else 0);
    Set(s, if parsed.Some? then parsed.value else 0).cell
  }

  /** The intended collapse-to-zero: after a detected mismatch the cell
      holds 0 and every later `get` returns 0; on a consistent cell the
      correction changes nothing. */
  lemma CorrectedGetCollapsesToZero(s: Secrets, c: Cell)
    ensures !Consistent(s, c) ==> CorrectedGet(s, CorrectedGet(s, c).cell) == Step(0, ZeroValue(s))
    ensures Consistent(s, c) ==> CorrectedGet(s, c) == Get(s, c)
  {
  }

  // ---- 2. compareTo overflows ----------------------------------------------

  /** As written: a container holding `MIN_VALUE` compared with the `Integer`
      1 returns `MAX_VALUE`, a positive result, although `MIN_VALUE < 1`. */
  lemma CompareToSignInverted(s: Secrets)
    ensures
      var r := Comparison.CompareTo(s, NewWith(s, MinValue), Comparison.IntOperand(1));
      r.outcome.Normal? && r.outcome.value == MaxValue && r.outcome.value > 0
  {
    var c := NewWith(s, MinValue);
    assert Get(s, c).value == MinValue;
    JavaInt.WrapAtEnds();
    assert Sub(MinValue, 1) == MaxValue;
  }

  /** The order of two Java `int`s as `Integer.compare` reports it. */
  function CompareValues(a: Int32, b: Int32): (r: Int32)
    ensures r < 0 <==> a < b
    ensures r == 0 <==> a == b
    ensures r > 0 <==> a > b
  {
    if a < b then -1 else if a == b then 0 else 1
  }

  /** Corrected `compareTo`: the same reads and the same exception as the
      original, with a result whose sign follows the order of the values. */
  function CorrectedCompareTo(s: Secrets, c: Cell, arg: Comparison.Operand): (r: Comparison.Comparison)
    ensures arg.IntOperand? ==>
      && r.outcome.Normal?
      && (r.outcome.value < 0 <==> Get(s, c).value < arg.x)
      && (r.outcome.value == 0 <==> Get(s, c).value == arg.x)
      && r.outcome.cell == Get(s, c).cell
      && r.operand == arg
    ensures arg.CellOperand? ==>
      && r.outcome.Normal?
      && (r.outcome.value < 0 <==> Get(s, c).value < Get(s, arg.other).value)
      && (r.outcome.value == 0 <==> Get(s, c).value == Get(s, arg.other).value)
      && r.outcome.cell == Get(s, c).cell
      && r.operand == Comparison.CellOperand(Get(s, arg.other).cell)
    ensures arg.OtherOperand? ==> r.outcome == Abrupt(ClassCastException, c)
  {
    match arg
    case IntOperand(x) =>
      var g := Get(s, c);
      Comparison.Comparison(Normal(CompareValues(g.value, x), g.cell), arg)
    case CellOperand(d) =>
      var g := Get(s, c);
      var h := Get(s, d);
      Comparison.Comparison(Normal(CompareValues(g.value, h.value), g.cell), Comparison.CellOperand(h.cell))
    case OtherOperand =>
      Comparison.Comparison(Abrupt(ClassCastException, c), arg)
  }

  /** The corrected comparison is antisymmetric, as `Comparable` requires:
      it compares the left decodings, which the reads return whether or not
      the containers were tampered with. */
  lemma CorrectedCompareToAntisymmetric(s: Secrets, c: Cell, d: Cell)
    ensures
      var cd := CorrectedCompareTo(s, c, Comparison.CellOperand(d)).outcome.value;
      var dc := CorrectedCompareTo(s, d, Comparison.CellOperand(c)).outcome.value;
      (cd < 0 <==> dc > 0) && (cd == 0 <==> dc == 0)
  {
  }

  /** The original and the corrected comparison agree in sign whenever the
      difference does not overflow. */
  lemma CompareToAgreesWithoutOverflow(s: Secrets, c: Cell, x: Int32)
    requires InRange(Get(s, c).value - x)
    ensures
      var orig := Comparison.CompareTo(s, c, Comparison.IntOperand(x)).outcome.value;
      var fixed := CorrectedCompareTo(s, c, Comparison.IntOperand(x)).outcome.value;
      (orig < 0 <==> fixed < 0) && (orig == 0 <==> fixed == 0)
  {
  }
}

=== FILE: java_int.dfy ===
/**
  Java's 32-bit `int` and the operators the container uses on it.

  Values are mathematical integers restricted to the two's-complement range
  of a Java `int`. Addition, subtraction and multiplication keep the low 32
  bits of the exact result (section 15.17.1 and 15.18.2 of the Java Language
  Specification); division truncates toward zero and `MIN_VALUE / -1`
  overflows back to `MIN_VALUE` (section 15.17.2); the remainder takes the
  sign of the dividend (section 15.17.3). `^` is `Bitwise.Xor`, which never
  leaves the range.
 */
module JavaInt {
  import Bitwise

  const Modulus: int := 0x1_0000_0000
  const MinValue: int := -0x8000_0000
  const MaxValue: int := 0x7FFF_FFFF

  /** A value of Java type `int`. */
  type Int32 = x: int | MinValue <= x <= MaxValue

  predicate InRange(x: int) {
    MinValue <= x <= MaxValue
  }

  /** `i` and `j` have the same low 32 bits. */
  predicate Congruent(i: int, j: int) {
    (i - j) % Modulus == 0
  }

  /** Narrowing of an exact result to a Java `int`: the one value of the
      range with the same low 32 bits. */
  function Wrap(i: int): (r: Int32)
    ensures Congruent(r, i)
    ensures InRange(i) ==> r == i
  {
    var q := (i - MinValue) / Modulus;
    assert i - MinValue == Modulus * q + (i - MinValue) % Modulus;
    (i - MinValue) % Modulus + MinValue
  }

  /** One past either end of the range wraps to the other end. */
  lemma WrapAtEnds()
    ensures Wrap(MaxValue + 1) == MinValue
    ensures Wrap(MinValue - 1) == MaxValue
  {
    assert Congruent(MinValue, MaxValue + 1);
    assert Congruent(MaxValue, MinValue - 1);
    WrapCongruent(MinValue, MaxValue + 1);
    WrapCongruent(MaxValue, MinValue - 1);
  }

  /** Two exact results with the same low 32 bits narrow to the same `int`. */
  lemma WrapCongruent(i: int, j: int)
    requires Congruent(i, j)
    ensures Wrap(i) == Wrap(j)
  {
    var ri, rj := Wrap(i), Wrap(j);
    // ri - rj is a multiple of the modulus lying strictly between -Modulus and Modulus
    var k := (ri - rj) / Modulus;
    assert ri - rj == Modulus * ((ri - i) / Modulus) - Modulus * ((rj - j) / Modulus) + Modulus * ((i - j) / Modulus);
    assert ri - rj == Modulus * ((ri - i) / Modulus - (rj - j) / Modulus + (i - j) / Modulus);
  }

  /** Congruence survives multiplication by the same factor. */
  lemma CongruentScale(i: int, j: int, k: int)
    requires Congruent(i, j)
    ensures Congruent(i * k, j * k)
  {
    var q := (i - j) / Modulus;
    assert i - j == Modulus * q;
    assert i * k - j * k == (i - j) * k;
    assert i * k - j * k == Modulus * (q * k);
  }

  /** Java `a ^ b`: the exclusive-or of two values in the range stays in
      the range, and each bit of it is the exclusive-or of the operands'
      bits at that position. */
  function Xor(a: Int32, b: Int32): (r: Int32)
    ensures forall i: nat :: Bitwise.Bit(r, i) == (if Bitwise.Bit(a, i) == Bitwise.Bit(b, i) then 0 else 1)
  {
    Bitwise.Pow2Of31();
    Bitwise.XorBounded(a, b, 31);
    Bitwise.XorBitwiseAll(a, b);
    Bitwise.Xor(a, b)
  }

  /** Java `a + b`. */
  function Add(a: Int32, b: Int32): (r: Int32)
    ensures Congruent(r, a + b)
    ensures InRange(a + b) ==> r == a + b
  {
    Wrap(a + b)
  }

  /** Java `a - b`. */
  function Sub(a: Int32, b: Int32): (r: Int32)
    ensures Congruent(r, a - b)
    ensures InRange(a - b) ==> r == a - b
  {
    Wrap(a - b)
  }

  /** Java `a * b`. */
  function Mul(a: Int32, b: Int32): (r: Int32)
    ensures Congruent(r, a * b)
    ensures InRange(a * b) ==> r == a * b
  {
    Wrap(a * b)
  }

  /** Euclid's division on naturals, as the unsigned core of `TruncDiv`. */
  lemma NatDivMod(n: nat, d: nat)
    requires d > 0
    ensures d * (n / d) <= n < d * (n / d) + d
    ensures n == d * (n / d) + n % d
  {
  }

  lemma AbsMul(x: int, y: int)
    ensures Bitwise.Abs(x * y) == Bitwise.Abs(x) * Bitwise.Abs(y)
  {
    if x < 0 && y < 0 {
      assert x * y == (-x) * (-y);
    } else if x < 0 {
      assert -(x * y) == (-x) * y;
    } else if y < 0 {
      assert -(x * y) == x * (-y);
    }
  }

  /** Division rounding toward zero on unbounded integers. */
  function TruncDiv(a: int, b: int): (q: int)
    requires b != 0
    ensures Bitwise.Abs(q * b) <= Bitwise.Abs(a) < Bitwise.Abs(q * b) + Bitwise.Abs(b)
    ensures q == 0 || ((q > 0) <==> ((a > 0) == (b > 0)))
  {
    var m: int := Bitwise.Abs(a) / Bitwise.Abs(b);
    NatQuotient(Bitwise.Abs(a), Bitwise.Abs(b));
    var q := if (a < 0) != (b < 0) then -m else m;
    TruncDivMagnitude(a, b, m, q);
    TruncDivSign(a, b, m, q);
    q
  }

  /** Any quotient of magnitude |a| / |b| brackets |a| between consecutive
      multiples of |b|, whatever its sign. */
  lemma TruncDivMagnitude(a: int, b: int, m: int, q: int)
    requires b != 0
    requires m == Bitwise.Abs(a) / Bitwise.Abs(b)
    requires Bitwise.Abs(q) == m
    ensures Bitwise.Abs(q * b) <= Bitwise.Abs(a) < Bitwise.Abs(q * b) + Bitwise.Abs(b)
  {
    NatDivMod(Bitwise.Abs(a), Bitwise.Abs(b));
    AbsMul(q, b);
    assert Bitwise.Abs(q * b) == Bitwise.Abs(b) * m;
  }

  /** A nonzero quotient is positive exactly when the operands have the
      same sign. */
  lemma TruncDivSign(a: int, b: int, m: int, q: int)
    requires b != 0
    requires 0 <= m
    requires a == 0 ==> m == 0
    requires q == if (a < 0) != (b < 0) then -m else m
    ensures q == 0 || ((q > 0) <==> ((a > 0) == (b > 0)))
  {
  }

  /** The quotient of two naturals is a natural, and 0 when the dividend
      is 0. */
  lemma NatQuotient(n: nat, d: nat)
    requires d > 0
    ensures 0 <= n / d
    ensures n == 0 ==> n / d == 0
  {
  }

  /** Remainder of `TruncDiv`: it completes the division exactly, is smaller
      in magnitude than the divisor and takes the sign of the dividend. */
  function TruncRem(a: int, b: int): (r: int)
    requires b != 0
    ensures a == TruncDiv(a, b) * b + r
    ensures Bitwise.Abs(r) < Bitwise.Abs(b)
    ensures r == 0 || ((r < 0) <==> (a < 0))
  {
    var u: int := Bitwise.Abs(a) % Bitwise.Abs(b);
    var r := if a < 0 then -u else u;
    TruncRemCompletes(a, b, u, r);
    r
  }

  lemma TruncRemCompletes(a: int, b: int, u: int, r: int)
    requires b != 0
    requires u == Bitwise.Abs(a) % Bitwise.Abs(b)
    requires r == if a < 0 then -u else u
    ensures a == TruncDiv(a, b) * b + r
    ensures Bitwise.Abs(r) < Bitwise.Abs(b)
  {
    var m: int := Bitwise.Abs(a) / Bitwise.Abs(b);
    NatDivMod(Bitwise.Abs(a), Bitwise.Abs(b));
    var q := TruncDiv(a, b);
    assert Bitwise.Abs(a) == Bitwise.Abs(b) * m + u;
    if a < 0 && b < 0 {
      assert q == m;
      assert q * b == -(Bitwise.Abs(b) * m);
    } else if a < 0 {
      assert q == -m;
      assert q * b == -(Bitwise.Abs(b) * m);
    } else if b < 0 {
      assert q == -m;
      assert q * b == Bitwise.Abs(b) * m;
    } else {
      assert q == m;
    }
  }

  /** The one quotient of two Java `int`s that does not fit: `MIN_VALUE / -1`. */
  lemma TruncDivOverflow(a: Int32, b: Int32)
    requires b != 0
    ensures !InRange(TruncDiv(a, b)) <==> (a == MinValue && b == -1)
  {
    var q := TruncDiv(a, b);
    if b == 1 {
      assert q == a;
    } else if b == -1 {
      assert q == 0 - (a as int);
    } else {
      AbsMul(q, b);
      SmallQuotient(Bitwise.Abs(q), Bitwise.Abs(b), Bitwise.Abs(a));
    }
  }

  lemma SmallQuotient(q: nat, b: nat, a: nat)
    requires b >= 2
    requires q * b <= a <= 0x8000_0000
    ensures q <= 0x4000_0000
  {
    assert q * 2 <= q * b;
  }

  /** Java `a / b` for a nonzero divisor: truncating division, which is exact
      except that `MIN_VALUE / -1` overflows to `MIN_VALUE`. */
  function Div(a: Int32, b: Int32): (r: Int32)
    requires b != 0
    ensures !(a == MinValue && b == -1) ==> r == TruncDiv(a, b)
    ensures (a == MinValue && b == -1) ==> r == MinValue
  {
    TruncDivOverflow(a, b);
    Wrap(TruncDiv(a, b))
  }

  /** Java `a % b` for a nonzero divisor. It never overflows. */
  function Rem(a: Int32, b: Int32): (r: Int32)
    requires b != 0
    ensures a == TruncDiv(a, b) * b + r
    ensures Bitwise.Abs(r) < Bitwise.Abs(b)
    ensures r == 0 || ((r < 0) <==> (a < 0))
  {
    TruncRem(a, b)
  }

  /** The identity section 15.17.3 of the Java Language Specification
      promises: `(a / b) * b + (a % b) == a`, overflow included. */
  lemma DivRemIdentity(a: Int32, b: Int32)
    requires b != 0
    ensures Add(Mul(Div(a, b), b), Rem(a, b)) == a
  {
    var q := TruncDiv(a, b);
    var r := Rem(a, b);
    CongruentScale(Div(a, b), q, b);
    var p := Mul(Div(a, b), b);
    assert Congruent(p + r, q * b + r) by {
      assert (p + r) - (q * b + r) == (p - Div(a, b) * b) + (Div(a, b) * b - q * b);
      assert Congruent(p, Div(a, b) * b);
      assert Congruent(Div(a, b) * b, q * b);
    }
    WrapCongruent(p + r, a);
  }

  /** Adding and then subtracting the same operand restores the value,
      overflow included. */
  lemma AddSubCancel(a: Int32, b: Int32)
    ensures Sub(Add(a, b), b) == a
  {
    var s := Add(a, b);
    assert Congruent(s - b, a) by {
      assert (s - b) - a == s - (a + b);
    }
    WrapCongruent(s - b, a);
  }

  /** Subtraction is addition of the negated operand, overflow included. */
  lemma SubIsAddNegated(a: Int32, b: Int32)
    ensures Sub(a, b) == Add(a, Sub(0, b))
  {
    var n := Sub(0, b);
    assert Congruent(a + n, a - b) by {
      assert (a + n) - (a - b) == n - (0 - b);
    }
    WrapCongruent(a + n, a - b);
  }

  /** A wrapped difference is 0 exactly when the operands are equal: two
      distinct `int`s are never 2^32 apart. */
  lemma SubZeroIffEqual(a: Int32, b: Int32)
    ensures Sub(a, b) == 0 <==> a == b
  {
    if Sub(a, b) == 0 {
      var k := (0 - (a - b)) / Modulus;
      assert 0 - (a - b) == Modulus * k;
    }
  }
}

=== FILE: protected_int.dfy ===
/**
  The anti-tamper integer container `ProtectedInt`.

  A logical Java `int` v is never stored as such: a cell holds the two words
  `left = v ^ leftSecret` and `right = v ^ rightSecret`, where the two secrets
  are process-wide masks. Reading decodes both words; if the two decodings
  disagree the cell is taken to be tampered with and its words are reset to
  `(0, 0)`.

  The process-wide static secrets are an explicit `Secrets` value passed to
  every operation, and a cell is an immutable pair of words: an operation
  returns the value Java returns together with the cell as it leaves it.
 */
module ProtectedInt {
  import opened Wrappers
  import opened JavaInt
  import Bitwise

  /** `MAX_RAND_VAL`: each secret is drawn from [0, MaxRandVal). */
  const MaxRandVal: int := 32769

  /** The two process-wide XOR masks. */
  datatype Secrets = Secrets(left: Int32, right: Int32)

  /** The secrets before `setup` has run: both -1. */
  const Unset: Secrets := Secrets(-1, -1)

  /** The two stored words of one container. */
  datatype Cell = Cell(left: Int32, right: Int32)

  /** The raw words `(0, 0)` that the no-arg constructor, a failed parse and
      the corruption reset write. They are not the encoding of 0. */
  const ZeroWords: Cell := Cell(0, 0)

  /** The value an operation returns and the cell it leaves behind. */
  datatype Step = Step(value: Int32, cell: Cell)

  datatype JavaException = ArithmeticException | ClassCastException

  /** How an operation that may throw completes, with the cell as it is left
      either way. */
  datatype Completion =
    | Normal(value: Int32, cell: Cell)
    | Abrupt(error: JavaException, cell: Cell)

  /** `isSetup()`: both secrets are non-negative. It rejects the sentinel
      and accepts every pair of `Math.random` draws. */
  function IsSetup(s: Secrets): (b: bool)
    ensures s == Unset ==> !b
    ensures 0 <= s.left < MaxRandVal && 0 <= s.right < MaxRandVal ==> b
  {
    s.left >= 0 && s.right >= 0
  }

  /** `setup()`, with the two truncated `Math.random() * MAX_RAND_VAL` draws
      as parameters. */
  function Setup(drawLeft: int, drawRight: int): (s: Secrets)
    requires 0 <= drawLeft < MaxRandVal && 0 <= drawRight < MaxRandVal
    ensures IsSetup(s)
    ensures s.left == drawLeft && s.right == drawRight
  {
    Secrets(drawLeft, drawRight)
  }

  /** The sentinel secrets are not set up; `setup` always sets them up.
      A corollary of the contracts of `IsSetup` and `Setup`, stated as one
      lifecycle fact. */
  lemma SetupLifecycle(drawLeft: int, drawRight: int)
    requires 0 <= drawLeft < MaxRandVal && 0 <= drawRight < MaxRandVal
    ensures !IsSetup(Unset)
    ensures IsSetup(Setup(drawLeft, drawRight))
    ensures Setup(drawLeft, drawRight) != Unset
  {
  }

  /** The logical value read through the left word. */
  function LeftValue(s: Secrets, c: Cell): (v: Int32) {
    Xor(c.left, s.left)
  }

  /** The logical value read through the right word. */
  function RightValue(s: Secrets, c: Cell): (v: Int32) {
    Xor(c.right, s.right)
  }

  /** The consistency invariant every `set` establishes: the two words
      differ by exactly the difference of the two secrets, whatever value
      they hold. */
  predicate Consistent(s: Secrets, c: Cell) {
    Xor(c.left, c.right) == Xor(s.left, s.right)
  }

  /** The two decodings agree exactly when the cell is consistent. */
  lemma DecodingsAgreeIffConsistent(s: Secrets, c: Cell)
    ensures LeftValue(s, c) == RightValue(s, c) <==> Consistent(s, c)
  {
    var l, r := LeftValue(s, c), RightValue(s, c);
    Bitwise.XorRegroup(c.left, s.left, c.right, s.right);
    Bitwise.XorComm(s.left, s.right);
    // Xor(l, r) == Xor(Xor(c.left, c.right), Xor(s.right, s.left))
    Bitwise.XorComm(s.right, s.left);
    Bitwise.XorZeroIffEqual(l, r);
    Bitwise.XorZeroIffEqual(Xor(c.left, c.right), Xor(s.left, s.right));
  }

  /** `set(v)`: returns `v` and stores words from which both decodings give
      back `v`. The previous words are not read, so no cell parameter. */
  function Set(s: Secrets, v: Int32): (r: Step)
    ensures r.value == v
    ensures LeftValue(s, r.cell) == v && RightValue(s, r.cell) == v
    ensures Consistent(s, r.cell)
  {
    var c := Cell(Xor(v, s.left), Xor(v, s.right));
    Bitwise.XorInvolution(v, s.left);
    Bitwise.XorInvolution(v, s.right);
    DecodingsAgreeIffConsistent(s, c);
    Step(v, c)
  }

  /** `get()`: returns the left decoding. A consistent cell is left as it
      is; an inconsistent one is reset to the raw words `(0, 0)`, while this
      call still returns its left decoding. */
  function Get(s: Secrets, c: Cell): (r: Step)
    ensures r.value == LeftValue(s, c)
    ensures Consistent(s, c) ==> r.cell == c && r.value == RightValue(s, c)
    ensures !Consistent(s, c) ==> r.cell == ZeroWords
  {
    var leftV := Xor(c.left, s.left);
    var rightV := Xor(c.right, s.right);
    DecodingsAgreeIffConsistent(s, c);
    if leftV != rightV then Step(leftV, ZeroWords) else Step(leftV, c)
  }

  /** `new ProtectedInt()`: the raw words `(0, 0)`, not `set(0)`. It does
      not read the secrets; whatever they are, the container reads back the
      left secret and reading it changes nothing. */
  function NewDefault(): (c: Cell)
    ensures forall s: Secrets :: Get(s, c) == Step(s.left, c)
  {
    ZeroWordsReadLeftSecretEverywhere();
    ZeroWords
  }

  /** `new ProtectedInt(v)`: a consistent cell that reads back `v`. */
  function NewWith(s: Secrets, v: Int32): (c: Cell)
    ensures Consistent(s, c)
    ensures Get(s, c) == Step(v, c)
  {
    Set(s, v).cell
  }

  /** `new ProtectedInt(text)`, given the outcome of `Integer.parseInt(text)`:
      a parsed value is stored as by `set`; a parse failure leaves the raw
      words `(0, 0)`, which read back as the left secret. */
  function NewFromText(s: Secrets, parsed: Option<Int32>): (c: Cell)
    ensures parsed.Some? ==> Consistent(s, c) && Get(s, c) == Step(parsed.value, c)
    ensures parsed.None? ==> c == ZeroWords && Get(s, c).value == s.left
  {
    match parsed
    case Some(v) => Set(s, v).cell
    case None =>
      ZeroWordsReadLeftSecret(s);
      ZeroWords
  }

  /** Round trip: right after `set(v)`, `get()` returns `v` and changes
      nothing. */
  lemma SetGetRoundTrip(s: Secrets, v: Int32)
    ensures Get(s, Set(s, v).cell) == Step(v, Set(s, v).cell)
  {
  }

  /** On a consistent cell `get` changes nothing, so a second `get` returns
      the same value. A corollary of `Get`'s contract. */
  lemma GetIdempotentWhenConsistent(s: Secrets, c: Cell)
    requires Consistent(s, c)
    ensures Get(s, c).cell == c
    ensures Get(s, Get(s, c).cell) == Get(s, c)
  {
  }

  /** Whatever the cell, a second `get` leaves the words where the first one
      left them. It returns the same value again on a consistent cell, and the
      left secret (the decoding of `(0, 0)`) after a reset. */
  lemma GetSettles(s: Secrets, c: Cell)
    ensures Get(s, Get(s, c).cell).cell == Get(s, c).cell
    ensures Consistent(s, c) ==> Get(s, Get(s, c).cell).value == Get(s, c).value
    ensures !Consistent(s, c) ==> Get(s, Get(s, c).cell).value == s.left
  {
    if !Consistent(s, c) {
      ZeroWordsReadLeftSecret(s);
    }
  }

  /** The raw words `(0, 0)` read back as the left secret. They are
      consistent only when the two secrets are equal, and `get` leaves them
      in place either way. */
  lemma ZeroWordsReadLeftSecret(s: Secrets)
    ensures Get(s, ZeroWords).value == s.left
    ensures Consistent(s, ZeroWords) <==> s.left == s.right
    ensures Get(s, ZeroWords).cell == ZeroWords
  {
    Bitwise.XorComm(0, s.left);
    Bitwise.XorZero(s.left);
    Bitwise.XorZero(0);
    Bitwise.XorZeroIffEqual(s.left, s.right);
  }

  lemma ZeroWordsReadLeftSecretEverywhere()
    ensures forall s: Secrets :: Get(s, ZeroWords) == Step(s.left, ZeroWords)
  {
    forall s: Secrets
      ensures Get(s, ZeroWords) == Step(s.left, ZeroWords)
    {
      ZeroWordsReadLeftSecret(s);
    }
  }

  /** A fresh no-arg container reads as the left secret, not as 0, and
      reading it never changes it. The contract of `NewDefault` instantiated
      at one pair of secrets. */
  lemma DefaultReadsLeftSecret(s: Secrets)
    ensures Get(s, NewDefault()) == Step(s.left, NewDefault())
  {
    ZeroWordsReadLeftSecret(s);
  }

  /** The stored words hide the value: the left word equals the value only
      when the left secret is 0, and the two words are equal only when the
      two secrets are. */
  lemma SetObfuscates(s: Secrets, v: Int32)
    ensures Set(s, v).cell.left == v <==> s.left == 0
    ensures Set(s, v).cell.left == Set(s, v).cell.right <==> s.left == s.right
  {
    Bitwise.XorFixesOnlyWithZero(v, s.left);
    Bitwise.XorComm(v, s.left);
    Bitwise.XorComm(v, s.right);
    Bitwise.XorCancel(s.left, s.right, v);
  }

  /** Overwriting the left word of an encoded value with any other word is
      detected: the next `get` returns the decoding of the new word and
      resets the cell, and the `get` after that returns the left secret. */
  lemma TamperLeftDetected(s: Secrets, v: Int32, w: Int32)
    requires w != Set(s, v).cell.left
    ensures !Consistent(s, Cell(w, Set(s, v).cell.right))
    ensures Get(s, Cell(w, Set(s, v).cell.right)) == Step(Xor(w, s.left), ZeroWords)
    ensures Get(s, Get(s, Cell(w, Set(s, v).cell.right)).cell) == Step(s.left, ZeroWords)
  {
    var c := Set(s, v).cell;
    var t := Cell(w, c.right);
    Bitwise.XorCancel(w, c.left, s.left);
    DecodingsAgreeIffConsistent(s, t);
    ZeroWordsReadLeftSecret(s);
  }

  /** Overwriting only the right word is detected too, but the detecting
      `get` still returns the true value, read through the untouched left
      word. */
  lemma TamperRightDetected(s: Secrets, v: Int32, w: Int32)
    requires w != Set(s, v).cell.right
    ensures !Consistent(s, Cell(Set(s, v).cell.left, w))
    ensures Get(s, Cell(Set(s, v).cell.left, w)) == Step(v, ZeroWords)
  {
    var c := Set(s, v).cell;
    var t := Cell(c.left, w);
    Bitwise.XorCancel(w, c.right, s.right);
    DecodingsAgreeIffConsistent(s, t);
  }

  /** The accepted limitation: flipping the same bits in both words keeps the
      cell consistent and moves the value by exactly those bits. */
  lemma SameFlipUndetected(s: Secrets, c: Cell, d: Int32)
    ensures Consistent(s, Cell(Xor(c.left, d), Xor(c.right, d))) <==> Consistent(s, c)
    ensures LeftValue(s, Cell(Xor(c.left, d), Xor(c.right, d))) == Xor(LeftValue(s, c), d)
  {
    Bitwise.XorRegroup(c.left, d, c.right, d);
    Bitwise.XorSelf(d);
    Bitwise.XorZero(Xor(c.left, c.right));
    Bitwise.XorAssoc(c.left, d, s.left);
    Bitwise.XorComm(d, s.left);
    Bitwise.XorAssoc(c.left, s.left, d);
  }

  /** Running `setup` again after a value was stored: the old words stay
      consistent under the new secrets exactly when both secret pairs differ
      by the same bits; otherwise the next `get` resets the cell. */
  lemma ResetupKeepsCellIff(s: Secrets, s': Secrets, v: Int32)
    ensures Consistent(s', Set(s, v).cell) <==> Xor(s.left, s.right) == Xor(s'.left, s'.right)
    ensures !Consistent(s', Set(s, v).cell) ==> Get(s', Set(s, v).cell).cell == ZeroWords
  {
  }
}

=== FILE: scenario.dfy ===
/**
  A typical use of the container, stated over the model: store 42,
  increment, double, compare with plain integers, and build a container
  from text that does not parse.
 */
module Scenario {
  import opened Wrappers
  import opened JavaInt
  import opened ProtectedInt
  import Arithmetic
  import Comparison

  lemma UsageScenario(s: Secrets)
    ensures
      var c := NewWith(s, 42);
      var inc := Arithmetic.Increment(s, c);
      var dbl := Arithmetic.Multiply(s, inc.cell, 2);
      && Get(s, c).value == 42
      && inc.value == 43
      && dbl.value == 86
      && Get(s, dbl.cell).value == 86
      && Comparison.CompareTo(s, dbl.cell, Comparison.IntOperand(86)).outcome.value == 0
      && Comparison.CompareTo(s, dbl.cell, Comparison.IntOperand(10)).outcome.value == 76
      && Comparison.CompareTo(s, dbl.cell, Comparison.OtherOperand).outcome == Abrupt(ClassCastException, dbl.cell)
      && Get(s, NewFromText(s, None)).value == s.left
  {
    var c := NewWith(s, 42);
    var inc := Arithmetic.Increment(s, c);
    assert inc.value == 43;
    var dbl := Arithmetic.Multiply(s, inc.cell, 2);
    assert Get(s, inc.cell).value == 43;
    assert dbl.value == 86;
  }
}

=== FILE: wrappers.dfy ===
/** The optional value the container's text constructor receives from
    `Integer.parseInt`: `Some(v)` for a parsed `int`, `None` when parsing
    throws `NumberFormatException`. */
module Wrappers {

  datatype Option<+T> = None | Some(value: T)
}
